=== FILE: README.md ===
# RemotePlayAnything, modelled in Dafny

`remote_play_anything.py` lets a game without Steam Remote Play support be
streamed through Steam's Remote Play Together. It borrows an installed game
that does support it (the *route game*) and works in two lives:

- **First life.** The user picks one of the route game's executables (the
  *route target*), then a game folder, then the executable to play. The
  script:
  - writes the chosen executable's path to a fixed restart file;
  - renames the route target to `_<name>` in its own folder;
  - copies `sys.executable` (the Python interpreter, or the program itself
    in a frozen build) into the route target's place;
  - asks Steam to start the route game.
- **Second life.** In a frozen build, Steam starts the substitute, which is
  the program itself. It finds the restart file and launches the recorded
  game in that game's folder. Run as `python remote_play_anything.py`, the
  substitute is the bare interpreter, which Steam starts without the script.

The model keeps everything that decides *what* happens. Anything that talks
to the outside world becomes a parameter of the model. The modules follow the
script:

| module | what it models |
|---|---|
| `Errors` | the exceptions the script can raise, and `Option`/`Result` |
| `Text` | `in` and `str.split`, as the script uses them; the joining `str(path)` does; the whitespace `int()` trims |
| `Decimal` | `str(n)` for naturals, and `int(text)` with Python's rules for whitespace, sign and underscores |
| `Paths` | Windows `pathlib` paths: `Path(text)`, `str(path)`, `/`, `.parent`, `.name`, `.stem` |
| `Chooser` | `show_chooser`: the labels it prints and the option the typed answer selects |
| `Manifest` | the line loop that reads `appid` and `installdir` from an `appmanifest_*.acf` |
| `Route` | `get_route_target`: choosing the route game and the route target |
| `FileSystem` | files as a map from path to contents, with writing, `Path.rename` and `shutil.copy` |
| `Substitution` | the three file steps of the first life |
| `Launcher` | the whole script: the `__main__` dispatch, the first life, and the hand-off between the lives |

### Behaviour worth knowing

- The script never rolls back. The restart record is written *before* the
  rename, and a failed rename or copy leaves it behind. A failed copy also
  leaves the route target moved aside, with nothing at its path
  (`Substitution.SubstituteFails`).
- The script never restores the route target and never deletes the restart
  file: the `unlink` and the restore lines (94-98) are commented out. So as
  long as the recorded file exists, every later run takes the second-life
  branch (`Launcher.RunDispatch`).
- Off Windows, the script calls `os.command`, which does not exist. That
  branch raises AttributeError, after the files have already been
  substituted (`Launcher.CommitReachesSteam`).

## Model

| member | source | states |
|---|---|---|
| `Text.Contains` | remote_play_anything.py:45-47 | `sub in line`; `Text.ContainsAt` characterizes it |
| `Text.ContainsAt` | remote_play_anything.py:45-47 | `sub in s` holds exactly when `sub` occurs at some position of `s` |
| `Text.SplitBy` | remote_play_anything.py:46-48 | `line.split('"')`, never empty; `Text.SplitByCount`, `Text.SplitByPiecesFree`, `Text.JoinSplitBy` and `Text.SplitByJoin` characterize it |
| `Text.SplitByCount` | remote_play_anything.py:46 | `split('"')` gives one more field than the line has quotes, so index 3 exists exactly when the line has at least three quotes |
| `Text.SplitByPiecesFree` | remote_play_anything.py:46 | no field of a split holds the separator |
| `Text.JoinSplitBy` | remote_play_anything.py:46 | splitting loses nothing: joining the fields with the separator gives back the line |
| `Text.SplitByJoin` | remote_play_anything.py:46 | separator-free pieces joined by the separator split back into exactly those pieces |
| `Text.StripShape` | remote_play_anything.py:35 | the ASCII whitespace `int()` trims is removed at both ends and nowhere else, and none is left at either end |
| `Text.StripAround` | remote_play_anything.py:35 | whitespace on both sides of text that starts and ends with a non-space is exactly what `int()` trims away |
| `Decimal.Str` | remote_play_anything.py:30 | `str(n)` is a non-empty run of digits, with no leading zero unless `n` is 0 |
| `Decimal.StrValue` | remote_play_anything.py:30 | the digits of `str(n)` denote `n`, so `len(str(n))` is the decimal digit count of `n` |
| `Decimal.ParseInt` | remote_play_anything.py:35 | `int(answer)`, `None` where Python raises ValueError; `Decimal.ParseIntReads` and `Decimal.ParseIntShape` characterize it in both directions, and `Decimal.StrParses`, `Decimal.NegativeParses` and `Decimal.RejectsForeignChar` are its uses in the script |
| `Decimal.ParseIntReads` | remote_play_anything.py:35 | `int()` accepts optional whitespace, an optional `+` or `-`, digits with single underscores between them, and optional whitespace, and returns the signed value of the digits: `+5`, `1_0`, `007` and `" 7 \t"` all read as numbers |
| `Decimal.ParseIntShape` | remote_play_anything.py:35 | conversely, every text `int()` accepts has exactly that shape, and its value is the signed value of its digits, so everything else raises ValueError |
| `Decimal.StrParses` | remote_play_anything.py:33-35 | `int()` reads a right-justified `str(n)` back as `n` |
| `Decimal.NegativeParses` | remote_play_anything.py:35 | `int()` reads `-` followed by `str(n)` as `-n` |
| `Decimal.RejectsForeignChar` | remote_play_anything.py:35 | any character other than a digit, whitespace, `_`, `+` or `-` makes `int()` raise ValueError |
| `Paths.Parse` | remote_play_anything.py:93 | `Path(text)` gives parts that are non-empty, not `.`, and free of separators; `Paths.ParseEmpty`, `Paths.ParsePart` and `Paths.ParseAround` fix its parts for every text |
| `Paths.ParseEmpty` | remote_play_anything.py:93 | `Path("")` and `Path(".")` have no parts |
| `Paths.KeepPartsAppend` | remote_play_anything.py:58 | dropping the empty and `.` pieces of a split treats each piece on its own, so the result for two lists in a row is the two results in a row |
| `Paths.ParseAround` | remote_play_anything.py:58 | a separator splits a path's text into two independent halves: `Path(a + '/' + b)` has the parts of `Path(a)` followed by those of `Path(b)`, so `Path('a//b')` and `Path('./a/b')` give the same parts as `Path('a/b')` |
| `Paths.Format` | remote_play_anything.py:74-76 | `str(path)` with backslashes; `Paths.ParseFormat` shows `Path` reads it back |
| `Paths.ParseFormat` | remote_play_anything.py:74-93 | a path written with `str` and read back with `Path` is the same path, so a restart file that was written carries the chosen executable intact (see `FileSystem.WriteText` under Left out) |
| `Paths.Extend` | remote_play_anything.py:58 | `p / s`; `Paths.ExtendShape` characterizes it |
| `Paths.ExtendShape` | remote_play_anything.py:58 | `p / s` is `p` followed by the parts of `Path(s)`: `p` stays a prefix, the result is well formed when `p` is, and a single part `s` is appended exactly |
| `Paths.Stem` | remote_play_anything.py:60 | `.stem` drops the text from the last dot of the name, unless that dot is the first or last character; otherwise it is the whole name |
| `Paths.Sentinel` | remote_play_anything.py:77 | `route_target.parent / ('_' + route_target.name)`; `Paths.SentinelShape` characterizes it |
| `Paths.SentinelShape` | remote_play_anything.py:77 | `parent / ('_' + name)` stays in the same folder, has the name with a `_` prefix, and is never the route target itself |
| `Chooser.RJust` | remote_play_anything.py:33 | `rjust(width)` pads with leading spaces up to `width` and keeps the text as the suffix |
| `Chooser.Labels` | remote_play_anything.py:29-34 | one label per option, in list order; label `i` is `str(i).rjust(len(str(n))) + ': ' + text`, where `text` is the key of option `i` |
| `Chooser.PyIndex` | remote_play_anything.py:36 | `options[k]` succeeds exactly for `-n <= k < n`, returning option `k`, or option `n + k` for negative `k`; otherwise it raises IndexError with no clamping |
| `Chooser.ShowChooser` | remote_play_anything.py:28-36 | prints the labels; returns an option exactly when `int(answer)` succeeds and is a valid Python index, and then returns `options[int(answer)]` with Python's negative indexing; otherwise raises ValueError for a non-integer and IndexError for an out-of-range index |
| `Chooser.LabelLayout` | remote_play_anything.py:30-33 | every label has a `len(str(n))`-wide id column that reads back as its position, then `': '`, then the option text |
| `Chooser.AnswerWithLabelId` | remote_play_anything.py:33-36 | typing the id column of option `i`'s label selects option `i` |
| `Chooser.NegativeAnswerAliases` | remote_play_anything.py:35-36 | typing `-m` selects the `m`-th option from the end |
| `Manifest.QuotedValue` | remote_play_anything.py:46-48 | `line.split('"')[3]` exists exactly when the line has at least three quotes, and otherwise raises IndexError |
| `Manifest.QuotedValueLocated` | remote_play_anything.py:46-48 | the value is the text after the third quote, up to the fourth quote or the end of the line, and holds no quote |
| `Manifest.ApplyLine` | remote_play_anything.py:45-48 | one iteration of the line loop; `Manifest.ParseManifestFails` and `Manifest.ParseManifestReads` characterize it |
| `Manifest.ParseManifest` | remote_play_anything.py:42-48 | `game_data` after the line loop; `Manifest.ParseManifestFails` and `Manifest.ParseManifestReads` characterize it |
| `Manifest.ParseManifestFails` | remote_play_anything.py:44-48 | reading a manifest fails, with IndexError, exactly when some line that sets a key has fewer than four fields |
| `Manifest.ParseManifestReads` | remote_play_anything.py:44-48 | on success, each key holds the fourth field of the last line that sets it, and is absent if no line does; a line with `"appid"` sets only `appid` (the `elif`); other lines are ignored |
| `Route.ScanManifests` | remote_play_anything.py:41-53 | the manifest loop with its `break`; `Route.SelectRouteGameChoice`, `Route.StopsAtFirstRoutable` and `Route.UnreadableAborts` characterize it |
| `Route.SelectRouteGame` | remote_play_anything.py:39-58 | the loop followed by the `installdir` lookup; `Route.SelectRouteGameChoice` characterizes it |
| `Route.FirstRoutable` | remote_play_anything.py:41-53 | the position of the first manifest that parses, names an `appid`, and whose store page links to the Remote Play hub |
| `Route.SelectRouteGameChoice` | remote_play_anything.py:39-58 | when every manifest is readable, the loop settles on the first routable game (`found`), else on the last manifest; a missing `installdir` raises KeyError; with no manifests `game_data` is unbound |
| `Route.StopsAtFirstRoutable` | remote_play_anything.py:51-53 | manifests after the first routable one are never read and cannot change the outcome |
| `Route.UnreadableAborts` | remote_play_anything.py:44-50 | the first manifest that does not parse, or has no `appid`, ends the run with IndexError or KeyError |
| `Route.RouteFolder` | remote_play_anything.py:58 | the route folder is the Steam folder followed by `steamapps`, `common` and the parts of the install directory |
| `Route.RouteFolderIsExtend` | remote_play_anything.py:58 | the route folder is what the script's three `/` steps give, each step being `Paths.Extend` |
| `Route.GetRouteTarget` | remote_play_anything.py:38-61 | fails exactly as route-game selection fails, if it fails; otherwise it returns the route game's `appid` with the executable the answer selects from the route folder's glob, or raises that chooser's ValueError or IndexError |
| `FileSystem.WriteText` | remote_play_anything.py:73-74 | after the write the restart file holds exactly the text, and no other file changes |
| `FileSystem.Rename` | remote_play_anything.py:77 | the rename succeeds exactly when the source exists and the destination does not; it moves the contents and changes nothing else; otherwise it raises FileNotFoundError or FileExistsError |
| `FileSystem.Copy` | remote_play_anything.py:78 | the copy succeeds exactly when the source exists and differs from the destination; only the destination changes; otherwise it raises FileNotFoundError or SameFileError |
| `FileSystem.RenameBack` | remote_play_anything.py:77 | renaming the sentinel back restores the files exactly |
| `Substitution.Substitute` | remote_play_anything.py:73-78 | the three file steps; `Substitution.SubstituteSucceeds`, `Substitution.SubstituteFails` and `Substitution.SubstituteRecord` characterize it |
| `Substitution.SubstituteSucceeds` | remote_play_anything.py:73-78 | the first life's file steps complete exactly when the route target exists, its `_` name is free, and the running executable exists (`Ready`); then the restart file holds `str(exe)`, the sentinel holds the route target's original contents, the route target holds a copy of `sys.executable`, and no other file changes |
| `Substitution.SubstituteFails` | remote_play_anything.py:73-78 | when the files are not `Ready`, the steps fail at the first step that cannot be done, and nothing is rolled back: the restart record stays written, a failed rename changes nothing else, and a failed copy leaves the route target moved aside with nothing at its path |
| `Substitution.SubstituteRecord` | remote_play_anything.py:73-78 | a completed substitution leaves `str(exe)` in the restart file |
| `Launcher.ClientTrigger` | remote_play_anything.py:80-87 | on Windows the script runs `cmd /c start steam://rungameid/<appid>`; on any other platform it raises AttributeError |
| `Launcher.MakePlan` | remote_play_anything.py:65-71 | the plan takes its route target and `appid` from `get_route_target`, the game folder the second answer selects, and the executable the third answer selects from that folder's glob; the first of the three steps to fail gives the exception |
| `Launcher.FirstLife` | remote_play_anything.py:64-87 | the first life never relaunches; if a chooser fails, it ends with that exception and no file changes; it reaches Steam only on Windows after the choices succeed |
| `Launcher.Run` | remote_play_anything.py:90-109 | the `__main__` block; `Launcher.RunDispatch` and `Launcher.FirstLifeHandoff` characterize it |
| `Launcher.SecondLife` | remote_play_anything.py:91-102 | the restart file exists and names an existing file, the case in which `Popen` raises nothing; `Launcher.RunDispatch` shows it decides the branch |
| `Launcher.LaunchIn` | remote_play_anything.py:100 | `Popen([str(path)], cwd=str(path.parent))`, as used by `Launcher.RunDispatch` and `Launcher.HandoffToChosenGame` |
| `Launcher.RunDispatch` | remote_play_anything.py:90-109 | a run relaunches exactly when the restart file names an existing file; it starts that file in its folder and changes no file, so every later run does the same; otherwise the first life runs |
| `Launcher.Commit` | remote_play_anything.py:73-87 | the substitution followed by the Steam trigger, never a relaunch; `Launcher.CommitReachesSteam` characterizes it |
| `Launcher.CommitReachesSteam` | remote_play_anything.py:73-87 | after the choices, the script reaches Steam exactly on Windows with the files `Ready`, leaving the files as the substitution left them; off Windows it raises AttributeError after the files are already substituted; otherwise it raises the failed substitution step's exception |
| `Launcher.HandoffToChosenGame` | remote_play_anything.py:73-101 | committing the choices on Windows with the files `Ready` reaches Steam, and the next run, whatever it is asked, starts the game the user chose in its own folder when that file still exists, and otherwise runs a fresh first life |
| `Launcher.HandoffToSelf` | remote_play_anything.py:60-101 | if the route target is also chosen as the game, its path now holds a copy of `sys.executable` (the Python interpreter, or the program itself in a frozen build), and every next run launches that copy |
| `Launcher.FirstLifeHandoff` | remote_play_anything.py:64-109 | a first run with no usable restart record, successful choices, `Ready` files and Windows substitutes the files and triggers Steam; the run after it, whatever it is asked, starts the chosen game in its own folder while that file exists, and otherwise runs a fresh first life |

## Left out

- Finding the Steam folder (lines 12-25) reads the Windows registry or asks with `input()`. The folder is a parameter of the model.
- The store-page fetch (lines 50-51) is network I/O. The page text is a parameter, a function from URL to text.
- The globs and the folder listing (lines 41, 60, 67, 71) are file-system enumeration. Their results are parameters, in the order they yield them. Reading a manifest's lines from its file is likewise replaced by the lines themselves.
- `subprocess.run`, `subprocess.Popen` and `sys.exit` (lines 81, 100-101) become the `Command` value a run ends with. What the started processes do is outside the model.
- Popen is modelled as failing with FileNotFoundError exactly when the recorded file is absent. Other launch failures, for example a file that is not executable, are not modelled.
- Console printing (lines 21, 33, 56) is left out, except for the chooser's labels, which are modelled as data.
- `Decimal.ParseInt` accepts only ASCII digits and ASCII whitespace. Python's `int()` also accepts other Unicode digits and spaces.
- `Decimal.ParseInt` has no digit limit. Since Python 3.11 (and 3.10.7 and 3.9.14), `int()` raises ValueError for a decimal string of more than 4300 digits, leading zeros included and underscores not, unless `sys.set_int_max_str_digits` or `PYTHONINTMAXSTRDIGITS` changes the limit. The limit depends on the Python version and the environment, so `Chooser.ShowChooser` selects an option or reports IndexError for such an answer, where such a Python raises ValueError.
- `Paths.Parse` treats a drive such as `C:` as an ordinary first part. It drops a leading separator, where `pathlib` keeps a root part `\`. It does not model drive-relative paths, UNC roots, or `/` with an absolute right-hand side.
- `Paths` models Windows paths on every platform, although `Launcher.Run` also takes `Darwin` and `Linux` runs. There, `pathlib` gives POSIX paths instead: `str` joins with `/` and keeps a leading `/`, `Path(text)` does not split at `\`, and `C:/Users/...` is a path relative to the working directory. So the restart-file text that `Substitution.SubstituteSucceeds` and `Launcher.CommitReachesSteam` give for a run off Windows is not what the script writes there.
- `Paths.Format` prints a drive alone as `C:`, because the model has no root part. So for an executable at a drive's top level, `Launcher.LaunchIn` gives the folder `C:`, where `str(PureWindowsPath('C:/x.exe').parent)` is `C:\`.
- `FileSystem.WriteText` always succeeds. `open('w+')` without an encoding uses the locale encoding, so on Windows `f.write(str(exe))` can raise UnicodeEncodeError for a path outside the ANSI code page, after the restart file was already created or truncated. Text encodings are not modelled.
- `Paths` compares path parts case-sensitively, and so do the file map's keys. Windows paths and NTFS ignore case, so Python reports FileExistsError for a sentinel that exists under other case, while `FileSystem.Rename` does not. `FileSystem.Copy`'s SameFileError test and `Substitution.Separate` are likewise decided by exact spelling.
- `FileSystem.Rename` follows Windows semantics: an existing destination is an error. POSIX replaces the destination instead.
- `FileSystem.Copy` copies to a file path only. `shutil.copy` into a directory, and permission errors, are not modelled.
- Directories are not modelled, so opening the restart file in a missing folder cannot fail. `is_dir` filtering is part of the given folder list.

=== FILE: chooser.dfy ===
/** `show_chooser`: print one numbered label per option, read an answer,
    and index the option list with it. */
module Chooser {
  import opened Errors
  import opened Text
  import opened Decimal

  /** `len(str(len(options)))`: the width of the id column. */
  function PadSize(count: nat): nat
  {
    |Str(count)|
  }

  /** `s.rjust(width)`: `s` preceded by enough spaces to fill `width`. */
  function RJust(s: string, width: nat): (r: string)
    ensures |r| == if |s| < width then width else |s|
    ensures r[|r| - |s|..] == s
    ensures forall i :: 0 <= i < |r| - |s| ==> r[i] == ' '
  {
    if |s| < width then Spaces(width - |s|) + s else s
  }

  /** One printed line: `str(id).rjust(padSize) + ': ' + text`. */
  function Label(id: nat, padSize: nat, text: string): string
  {
    RJust(Str(id), padSize) + ": " + text
  }

  /** `f` applied to each option and its running id, ids counted from `first`. */
  function Enumerate<T>(options: seq<T>, f: (nat, T) -> string, first: nat): (r: seq<string>)
    ensures |r| == |options|
    ensures forall i {:trigger r[i]} :: 0 <= i < |options| ==> r[i] == f(first + i, options[i])
    decreases |options|
  {
    if |options| == 0 then []
    else [f(first, options[0])] + Enumerate(options[1..], f, first + 1)
  }

  /** The lines the chooser prints for `options`, one per option, in order. */
  function Labels<T>(options: seq<T>, key: T -> string): (r: seq<string>)
    ensures |r| == |options|
    ensures forall i {:trigger r[i]} :: 0 <= i < |options| ==> r[i] == Label(i, PadSize(|options|), key(options[i]))
  {
    var pad := PadSize(|options|);
    Enumerate(options, (id, option) => Label(id, pad, key(option)), 0)
  }

  /** `options[k]`, where a negative `k` counts from the end. */
  function PyIndex<T>(options: seq<T>, k: int): (r: Result<T>)
    ensures r.Ok? <==> -|options| <= k < |options|
    ensures r.Err? ==> r.error == IndexError
    ensures r.Ok? ==> r.value == options[if k >= 0 then k else |options| + k]
  {
    if 0 <= k < |options| then Ok(options[k])
    else if -|options| <= k < 0 then Ok(options[|options| + k])
    else Err(IndexError)
  }

  /** What one call of the chooser does: the lines it prints and the option
      it returns, or the exception the answer causes. */
  datatype Shown<T> = Shown(labels: seq<string>, choice: Result<T>)

  function ShowChooser<T>(options: seq<T>, key: T -> string, answer: string): (r: Shown<T>)
    ensures r.labels == Labels(options, key)
    ensures r.choice.Ok? <==> ParseInt(answer).Some? && -|options| <= ParseInt(answer).value < |options|
    ensures r.choice.Err? ==> r.choice.error == (if ParseInt(answer).None? then ValueError else IndexError)
    ensures r.choice.Ok? ==> var k := ParseInt(answer).value;
      r.choice.value == options[if k >= 0 then k else |options| + k]
  {
    var labels := Labels(options, key);
    match ParseInt(answer)
    case None => Shown(labels, Err(ValueError))
    case Some(k) => Shown(labels, PyIndex(options, k))
  }

  /** Every label has the same layout: an id column exactly `PadSize(n)`
      wide that `int()` reads back as the option's position, then ": ",
      then the option's text. */
  lemma LabelLayout(i: nat, n: nat, text: string)
    requires i < n
    ensures var pad := PadSize(n); var l := Label(i, pad, text);
      |l| == pad + 2 + |text| && ParseInt(l[..pad]) == Some(i) &&
      l[pad..pad + 2] == ": " && l[pad + 2..] == text
  {
    var pad := PadSize(n);
    var id := RJust(Str(i), pad);
    IdColumn(i, n);
    var l := id + ": " + text;
    assert l[..pad] == id;
    assert l[pad..pad + 2] == ": ";
    assert l[pad + 2..] == text;
  }

  /** The id column of label `i` of `n` fills the column exactly and reads back as `i`. */
  lemma IdColumn(i: nat, n: nat)
    requires i < n
    ensures |RJust(Str(i), PadSize(n))| == PadSize(n)
    ensures ParseInt(RJust(Str(i), PadSize(n))) == Some(i)
  {
    var pad := PadSize(n);
    var digits := Str(i);
    StrLengthMonotone(i, n);
    assert RJust(digits, pad) == Spaces(pad - |digits|) + digits;
    StrParses(i, pad - |digits|);
  }

  /** Typing back the id column of the label printed for option `i`
      selects option `i`. */
  lemma AnswerWithLabelId<T>(options: seq<T>, key: T -> string, i: nat)
    requires i < |options|
    ensures var pad := PadSize(|options|);
      ShowChooser(options, key, ShowChooser(options, key, "").labels[i][..pad]).choice == Ok(options[i])
  {
    var pad := PadSize(|options|);
    LabelLayout(i, |options|, key(options[i]));
  }

  /** Python's negative indices: answering `-m` selects the `m`-th option
      from the end, the one whose label shows `n - m`. */
  lemma NegativeAnswerAliases<T>(options: seq<T>, key: T -> string, m: nat)
    requires 0 < m <= |options|
    ensures ShowChooser(options, key, "-" + Str(m)).choice == Ok(options[|options| - m])
  {
    var k: int := -(m as int);
    assert PyIndex(options, k) == Ok(options[|options| - m]);
    NegativeParses(m);
    ChoiceOfParsed(options, key, "-" + Str(m), k);
  }

  lemma ChoiceOfParsed<T>(options: seq<T>, key: T -> string, answer: string, k: int)
    requires ParseInt(answer) == Some(k)
    ensures ShowChooser(options, key, answer).choice == PyIndex(options, k)
  {
  }
}

=== FILE: decimal.dfy ===
/** Decimal text: Python's `str(n)` for a non-negative `n` and `int(s)` for
    base 10. */
module Decimal {
  import opened Errors
  import opened Text

  predicate IsDigit(ch: char)
  {
    '0' <= ch <= '9'
  }

  predicate AllDigits(s: string)
  {
    forall i :: 0 <= i < |s| ==> IsDigit(s[i])
  }

  function DigitChar(d: nat): (ch: char)
    requires d < 10
    ensures IsDigit(ch) && ch as int - '0' as int == d
  {
    ('0' as int + d) as char
  }

  /** The number a string of decimal digits denotes (leading zeros allowed). */
  function Value(s: string): nat
    requires AllDigits(s)
    decreases |s|
  {
    if |s| == 0 then 0 else Value(s[..|s| - 1]) * 10 + (s[|s| - 1] as int - '0' as int)
  }

  /** `str(n)`: the shortest decimal spelling of `n`, which denotes `n`. */
  function Str(n: nat): (r: string)
    ensures |r| > 0 && AllDigits(r)
    ensures r[0] == '0' ==> n == 0
    decreases n
  {
    if n < 10 then [DigitChar(n)] else Str(n / 10) + [DigitChar(n % 10)]
  }

  /** The spelling denotes the number spelled. */
  lemma {:induction false} StrValue(n: nat)
    ensures Value(Str(n)) == n
    decreases n
  {
    if n >= 10 {
      var front := Str(n / 10);
      StrValue(n / 10);
      assert (front + [DigitChar(n % 10)])[..|front|] == front;
    }
  }

  /** A larger number never has a shorter spelling, so every id below a count
      fits in the width of the count's own spelling. */
  lemma {:induction false} StrLengthMonotone(a: nat, b: nat)
    requires a <= b
    ensures |Str(a)| <= |Str(b)|
    decreases b
  {
    if a >= 10 {
      StrLengthMonotone(a / 10, b / 10);
    }
  }

  /** Digits in which single underscores may separate digits, as `int()`
      accepts them. */
  predicate IsDigitGroup(b: string)
  {
    && |b| > 0 && IsDigit(b[0]) && IsDigit(b[|b| - 1])
    && (forall i :: 0 <= i < |b| ==> IsDigit(b[i]) || b[i] == '_')
    && !Contains(b, "__")
  }

  /** Digits alone never hold two underscores in a row. */
  lemma {:induction false} DigitsHaveNoDoubleUnderscore(s: string)
    requires AllDigits(s)
    ensures !Contains(s, "__")
    decreases |s|
  {
    if |s| > 0 {
      DigitsHaveNoDoubleUnderscore(s[1..]);
      if |s| >= 2 {
        assert s[..2][0] == s[0];
      }
    }
  }

  function DropUnderscores(b: string): (r: string)
    ensures (forall i :: 0 <= i < |b| ==> IsDigit(b[i]) || b[i] == '_') ==> AllDigits(r)
    decreases |b|
  {
    if |b| == 0 then "" else (if b[0] == '_' then "" else [b[0]]) + DropUnderscores(b[1..])
  }

  /** `int(s)`: `None` where Python raises ValueError. */
  function ParseInt(s: string): Option<int>
  {
    var t := Strip(s);
    if |t| > 0 && (t[0] == '+' || t[0] == '-') then
      var body := t[1..];
      if IsDigitGroup(body) then
        var n: int := Value(DropUnderscores(body));
        Some(if t[0] == '-' then -n else n)
      else None
    else if IsDigitGroup(t) then Some(Value(DropUnderscores(t)))
    else None
  }

  lemma {:induction false} DropUnderscoresOfDigits(s: string)
    requires AllDigits(s)
    ensures DropUnderscores(s) == s
    decreases |s|
  {
    if |s| > 0 {
      DropUnderscoresOfDigits(s[1..]);
      assert [s[0]] + s[1..] == s;
    }
  }

  /** `int()` reads back what `str()` wrote, also after left padding with
      spaces (as `rjust` produces). */
  lemma StrParses(n: nat, k: nat)
    ensures ParseInt(Spaces(k) + Str(n)) == Some(n)
  {
    var t := Str(n);
    StripPadded(k, t);
    DropUnderscoresOfDigits(t);
    DigitsHaveNoDoubleUnderscore(t);
    StrValue(n);
  }

  /** A minus sign before a spelled number gives its negation. */
  lemma NegativeParses(n: nat)
    ensures ParseInt("-" + Str(n)) == Some(-(n as int))
  {
    var digits := Str(n);
    var t := "-" + digits;
    assert Strip(t) == t by {
      StripPadded(0, t);
      assert Spaces(0) + t == t;
    }
    assert t[1..] == digits;
    assert IsDigitGroup(digits) by {
      DigitsHaveNoDoubleUnderscore(digits);
    }
    assert Value(DropUnderscores(digits)) == n by {
      DropUnderscoresOfDigits(digits);
      StrValue(n);
    }
  }

  /** A sign `int()` accepts: none, `+` or `-`. */
  predicate IsSign(sign: string)
  {
    sign == "" || sign == "+" || sign == "-"
  }

  /** The number a sign and a digit group denote. */
  function Signed(sign: string, g: string): int
    requires IsDigitGroup(g)
  {
    var n: int := Value(DropUnderscores(g));
    if sign == "-" then -n else n
  }

  /** `int()` reads every spelling it accepts: optional whitespace, an
      optional sign, digits with single underscores between them, optional
      whitespace. */
  lemma ParseIntReads(pre: string, sign: string, g: string, post: string)
    requires AllSpace(pre) && AllSpace(post) && IsSign(sign) && IsDigitGroup(g)
    ensures ParseInt(pre + sign + g + post) == Some(Signed(sign, g))
  {
    var t := sign + g;
    assert pre + sign + g + post == pre + t + post;
    assert t[|t| - 1] == g[|g| - 1];
    StripAround(pre, t, post);
    if sign != "" {
      assert t[1..] == g;
    } else {
      assert t == g;
    }
  }

  /** What `int()` accepts is, once trimmed, a sign and a digit group. */
  lemma SignAndDigits(s: string) returns (sign: string, g: string)
    requires ParseInt(s).Some?
    ensures sign + g == Strip(s) && IsSign(sign) && IsDigitGroup(g)
    ensures ParseInt(s).value == Signed(sign, g)
  {
    var t := Strip(s);
    if t[0] == '+' || t[0] == '-' {
      sign, g := t[..1], t[1..];
    } else {
      sign, g := "", t;
    }
  }

  /** The converse of `ParseIntReads`: whatever `int()` accepts has that
      shape, and its value is the signed digit group. */
  lemma ParseIntShape(s: string) returns (pre: string, sign: string, g: string, post: string)
    requires ParseInt(s).Some?
    ensures s == pre + sign + g + post
    ensures AllSpace(pre) && AllSpace(post) && IsSign(sign) && IsDigitGroup(g)
    ensures ParseInt(s).value == Signed(sign, g)
  {
    var lo, hi := StripShape(s);
    pre, post := s[..lo], s[hi..];
    sign, g := SignAndDigits(s);
    assert pre + (sign + g) == s[..hi];
    assert s == s[..hi] + post;
  }

  /** Any character other than a digit, an underscore, a sign or whitespace
      makes `int()` raise ValueError: there is no lenient reading. */
  lemma RejectsForeignChar(s: string, i: nat)
    requires i < |s| && !IsDigit(s[i]) && !IsSpace(s[i]) && s[i] != '_' && s[i] != '+' && s[i] != '-'
    ensures ParseInt(s) == None
  {
    var t := Strip(s);
    var lo, hi := StripShape(s);
    assert lo <= i < hi;
    assert t[i - lo] == s[i];
    if |t| > 0 && (t[0] == '+' || t[0] == '-') {
      assert t[1..][i - lo - 1] == s[i];
    }
  }
}

=== FILE: errors.dfy ===
/** Values the script leaves implicit in Python: an optional value, the
    exceptions that can escape it, and a value-or-exception result. */
module Errors {

  datatype Option<T> = None | Some(value: T)

  /** The exceptions the modelled code can raise. None of them is caught,
      except a FileNotFoundError raised while opening the restart file or
      relaunching in the second life. */
  datatype Error =
    | IndexError                       // `seq[i]` with `i` out of range
    | ValueError                       // `int(answer)` of a non-integer answer
    | KeyError(key: string)            // `game_data[key]` for a key no manifest line set
    | UnboundLocalError(name: string)  // `game_data` read although no manifest was examined
    | FileNotFoundError(path: string)  // rename or copy from a path that does not exist
    | FileExistsError(path: string)    // rename onto a path that exists (Windows semantics)
    | SameFileError(path: string)      // `shutil.copy` of a file onto itself
    | AttributeError(name: string)     // `os.command`, which the `os` module does not have

  datatype Result<T> = Ok(value: T) | Err(error: Error)
}

=== FILE: filesystem.dfy ===
/** The files the script touches, and the three operations it applies to
    them: writing a text file, `Path.rename` and `shutil.copy`. */
module FileSystem {
  import opened Errors
  import opened Paths

  /** Each file's path mapped to its contents. Directories are implicit. */
  type Files = map<Path, string>

  /** `after` agrees with `before` on every path outside `changed`. */
  ghost predicate SameElsewhere(before: Files, after: Files, changed: set<Path>)
  {
    forall q :: q !in changed ==> (q in before <==> q in after) && (q in before ==> before[q] == after[q])
  }

  /** `open(p, 'w+')` followed by `write(text)`: `p` holds exactly `text`,
      whether or not it existed. */
  function WriteText(fs: Files, p: Path, text: string): (r: Files)
    ensures p in r && r[p] == text
    ensures SameElsewhere(fs, r, {p})
  {
    fs[p := text]
  }

  /** `src.rename(dst)` on Windows: the file moves, and an existing `dst`
      is an error rather than being replaced. */
  function Rename(fs: Files, src: Path, dst: Path): (r: Result<Files>)
    ensures r.Ok? <==> src in fs && dst !in fs
    ensures src !in fs ==> r == Err(FileNotFoundError(Format(src)))
    ensures src in fs && dst in fs ==> r == Err(FileExistsError(Format(dst)))
    ensures r.Ok? ==> dst in r.value && r.value[dst] == fs[src] && src !in r.value
    ensures r.Ok? ==> SameElsewhere(fs, r.value, {src, dst})
  {
    if src !in fs then Err(FileNotFoundError(Format(src)))
    else if dst in fs then Err(FileExistsError(Format(dst)))
    else Ok((fs - {src})[dst := fs[src]])
  }

  /** `shutil.copy(src, dst)` to a file path: `dst` gets `src`'s contents;
      a missing `src`, or `dst` naming the same file, is an error. */
  function Copy(fs: Files, src: Path, dst: Path): (r: Result<Files>)
    ensures r.Ok? <==> src in fs && src != dst
    ensures src !in fs ==> r == Err(FileNotFoundError(Format(src)))
    ensures src in fs && src == dst ==> r == Err(SameFileError(Format(src)))
    ensures r.Ok? ==> dst in r.value && r.value[dst] == fs[src] && src in r.value && r.value[src] == fs[src]
    ensures r.Ok? ==> SameElsewhere(fs, r.value, {dst})
  {
    if src !in fs then Err(FileNotFoundError(Format(src)))
    else if src == dst then Err(SameFileError(Format(src)))
    else Ok(fs[dst := fs[src]])
  }

  /** A rename followed by the reverse rename restores the files. */
  lemma RenameBack(fs: Files, src: Path, dst: Path)
    requires Rename(fs, src, dst).Ok?
    ensures Rename(Rename(fs, src, dst).value, dst, src) == Ok(fs)
  {
    var moved := Rename(fs, src, dst).value;
    var back := (moved - {dst})[src := moved[dst]];
    assert forall q :: q in back <==> q in fs;
    assert forall q :: q in back ==> back[q] == fs[q];
    assert back == fs;
    assert Rename(moved, dst, src) == Ok(back);
  }
}

=== FILE: launcher.dfy ===
/** The script as a whole: the `__main__` dispatch between the second life
    (relaunch the game recorded in the restart file) and the first life
    (choose the games, substitute, and ask Steam to start the route game). */
module Launcher {
  import opened Errors
  import opened Paths
  import opened FileSystem
  import opened Chooser
  import opened Route
  import opened Substitution

  datatype Platform = Win32 | Darwin | Linux

  /** A process to start: its argument list and working directory. */
  datatype Command = Command(args: seq<string>, cwd: Option<string>)

  /** Lines 80-87: on Windows, `cmd /c start steam://rungameid/<appid>`;
      elsewhere the script calls `os.command`, which the `os` module does
      not have. */
  function ClientTrigger(platform: Platform, appid: string): (r: Result<Command>)
    ensures r.Ok? <==> platform == Win32
    ensures r.Ok? ==> r.value.args == ["cmd", "/c", "start", "steam://rungameid/" + appid] && r.value.cwd == None
    ensures r.Err? ==> r.error == AttributeError("command")
  {
    if platform == Win32 then Ok(Command(["cmd", "/c", "start", "steam://rungameid/" + appid], None))
    else Err(AttributeError("command"))
  }

  /** Everything the script reads from outside: the files, the Steam folder,
      the manifests (as lists of lines, in glob order), the store pages, the
      results of the `.exe` globs and of listing `steamapps/common`, the three
      answers typed at the choosers, `sys.executable` and `sys.platform`. */
  datatype World = World(
    fs: Files,
    steam: Path,
    manifests: seq<seq<string>>,
    storePage: string -> string,
    exeGlob: Path -> seq<Path>,
    gameFolders: seq<Path>,
    routeAnswer: string,
    gameAnswer: string,
    exeAnswer: string,
    selfExe: Path,
    platform: Platform)

  /** The three choices the first life makes before touching any file. */
  datatype Plan = Plan(routeTarget: Path, appid: string, exe: Path)

  function MakePlan(w: World): (r: Result<Plan>)
    ensures r.Ok? ==>
      GetRouteTarget(w.steam, w.manifests, w.storePage, w.exeGlob, w.routeAnswer) ==
      Ok(RouteTarget(r.value.routeTarget, r.value.appid))
    ensures r.Ok? ==> exists game :: game in w.gameFolders && r.value.exe in w.exeGlob(game)
    ensures GetRouteTarget(w.steam, w.manifests, w.storePage, w.exeGlob, w.routeAnswer).Err? ==>
      r == Err(GetRouteTarget(w.steam, w.manifests, w.storePage, w.exeGlob, w.routeAnswer).error)
    ensures GetRouteTarget(w.steam, w.manifests, w.storePage, w.exeGlob, w.routeAnswer).Ok? ==>
      var game := ShowChooser(w.gameFolders, Stem, w.gameAnswer).choice;
      (game.Err? ==> r == Err(game.error)) &&
      (game.Ok? ==>
        var exe := ShowChooser(w.exeGlob(game.value), Stem, w.exeAnswer).choice;
        (r.Ok? <==> exe.Ok?) && (r.Ok? ==> r.value.exe == exe.value) && (r.Err? ==> r.error == exe.error))
  {
    match GetRouteTarget(w.steam, w.manifests, w.storePage, w.exeGlob, w.routeAnswer)
    case Err(e) => Err(e)
    case Ok(target) =>
      match ShowChooser(w.gameFolders, Stem, w.gameAnswer).choice
      case Err(e) => Err(e)
      case Ok(game) =>
        match ShowChooser(w.exeGlob(game), Stem, w.exeAnswer).choice
        case Err(e) => Err(e)
        case Ok(exe) => Ok(Plan(target.target, target.appid, exe))
  }

  /** How a run ends: relaunching the recorded game and exiting, asking
      Steam to start the route game, or an uncaught exception. */
  datatype Effect =
    | Relaunched(fs: Files, launch: Command)
    | Triggered(fs: Files, trigger: Command)
    | Aborted(fs: Files, error: Error)

  /** `get_steam_folder()` and `remote_play_anything()`: make the three
      choices, then commit to them. */
  function FirstLife(w: World): (r: Effect)
    ensures !r.Relaunched?
    ensures MakePlan(w).Err? ==> r == Aborted(w.fs, MakePlan(w).error)
    ensures r.Triggered? ==> MakePlan(w).Ok? && w.platform == Win32
  {
    match MakePlan(w)
    case Err(e) => Aborted(w.fs, e)
    case Ok(plan) => Commit(w.fs, plan, w.selfExe, w.platform)
  }

  /** Lines 73-87: substitute the files, then ask Steam to start the route game. */
  function Commit(fs: Files, plan: Plan, selfExe: Path, platform: Platform): (r: Effect)
    ensures !r.Relaunched?
  {
    match Substitute(fs, plan.routeTarget, plan.exe, selfExe)
    case Failed(after, e) => Aborted(after, e)
    case Done(after) =>
      match ClientTrigger(platform, plan.appid)
      case Ok(c) => Triggered(after, c)
      case Err(e) => Aborted(after, e)
  }

  /** Start `path` in its own folder, as the second life does. */
  function LaunchIn(path: Path): Command
  {
    Command([Format(path)], Some(Format(Parent(path))))
  }

  /** The `__main__` block. A missing restart file, and a recorded game that
      does not exist (`Popen` raises FileNotFoundError), are both caught and
      fall through to the first life. */
  function Run(w: World): (r: Effect)
  {
    if SecondLife(w.fs) then Relaunched(w.fs, LaunchIn(Parse(w.fs[RestartFile])))
    else FirstLife(w)
  }

  /** The restart file exists and names a file that exists. */
  predicate SecondLife(fs: Files)
  {
    RestartFile in fs && Parse(fs[RestartFile]) in fs
  }

  /** A run relaunches exactly when the restart file names an existing file.
      It then starts that file in its folder and leaves every file as it
      was, the restart file included, so every later run relaunches too. */
  lemma RunDispatch(w: World)
    ensures Run(w).Relaunched? <==> SecondLife(w.fs)
    ensures !SecondLife(w.fs) ==> Run(w) == FirstLife(w)
    ensures Run(w).Relaunched? ==> Run(w).fs == w.fs && Run(w).launch == LaunchIn(Parse(w.fs[RestartFile]))
    ensures Run(w).Relaunched? ==> forall next: World :: next.fs == w.fs ==> Run(next) == Run(w)
  {
  }

  /** Committing to the choices reaches Steam exactly on Windows with the
      files `Ready`. Otherwise it raises the exception of the step that
      failed: a substitution step, or, off Windows, the missing
      `os.command`, by which time the files are already substituted. */
  lemma CommitReachesSteam(fs: Files, plan: Plan, selfExe: Path, platform: Platform)
    requires Separate(plan.routeTarget, selfExe)
    ensures Commit(fs, plan, selfExe, platform).Triggered? <==> platform == Win32 && Ready(fs, plan.routeTarget, selfExe)
    ensures Ready(fs, plan.routeTarget, selfExe) ==>
      Commit(fs, plan, selfExe, platform).fs == Substitute(fs, plan.routeTarget, plan.exe, selfExe).fs
    ensures Commit(fs, plan, selfExe, platform).Triggered? ==>
      Commit(fs, plan, selfExe, platform).trigger == ClientTrigger(Win32, plan.appid).value
    ensures Ready(fs, plan.routeTarget, selfExe) && platform != Win32 ==>
      Commit(fs, plan, selfExe, platform).Aborted? && Commit(fs, plan, selfExe, platform).error == AttributeError("command")
    ensures !Ready(fs, plan.routeTarget, selfExe) ==>
      var failed := Substitute(fs, plan.routeTarget, plan.exe, selfExe);
      Commit(fs, plan, selfExe, platform) == Aborted(failed.fs, failed.error)
  {
    SubstituteSucceeds(fs, plan.routeTarget, plan.exe, selfExe);
  }

  /** Committing on Windows with the files `Ready` reaches Steam, and the
      next run, whatever it is asked, starts the game the user chose, in that
      game's folder, provided that game's file still exists. */
  lemma HandoffToChosenGame(fs: Files, plan: Plan, selfExe: Path)
    requires Separate(plan.routeTarget, selfExe) && WellFormed(plan.exe) && Ready(fs, plan.routeTarget, selfExe)
    ensures Commit(fs, plan, selfExe, Win32).Triggered?
    ensures forall next: World :: next.fs == Commit(fs, plan, selfExe, Win32).fs ==>
      Run(next) == if plan.exe in next.fs then Relaunched(next.fs, LaunchIn(plan.exe)) else FirstLife(next)
  {
    CommitReachesSteam(fs, plan, selfExe, Win32);
    SubstituteRecord(fs, plan.routeTarget, plan.exe, selfExe);
    ParseFormat(plan.exe);
  }

  /** Choosing the route target itself as the game to play makes the second
      life start what now sits at that path: the copy of `sys.executable`. */
  lemma HandoffToSelf(fs: Files, plan: Plan, selfExe: Path)
    requires plan.exe == plan.routeTarget && Separate(plan.routeTarget, selfExe) && Ready(fs, plan.routeTarget, selfExe)
    ensures var after := Commit(fs, plan, selfExe, Win32).fs;
      plan.routeTarget in after && after[plan.routeTarget] == fs[selfExe]
    ensures forall next: World :: next.fs == Commit(fs, plan, selfExe, Win32).fs ==>
      Run(next) == Relaunched(next.fs, LaunchIn(plan.routeTarget))
  {
    CommitReachesSteam(fs, plan, selfExe, Win32);
    SubstituteSucceeds(fs, plan.routeTarget, plan.exe, selfExe);
    HandoffToChosenGame(fs, plan, selfExe);
  }

  /** A whole first run: with no usable restart record, choices that
      succeed, files `Ready` for the substitution and Windows, the run
      substitutes the files and asks Steam to start the route game; the run
      after it, whatever it is asked, starts the chosen game in its own
      folder while that file exists, and otherwise runs a fresh first life. */
  lemma FirstLifeHandoff(w: World, plan: Plan)
    requires !SecondLife(w.fs) && MakePlan(w) == Ok(plan) && w.platform == Win32
    requires Separate(plan.routeTarget, w.selfExe) && WellFormed(plan.exe) && Ready(w.fs, plan.routeTarget, w.selfExe)
    ensures Run(w).Triggered?
    ensures Run(w).fs == Substitute(w.fs, plan.routeTarget, plan.exe, w.selfExe).fs
    ensures Run(w).trigger == ClientTrigger(Win32, plan.appid).value
    ensures forall next: World :: next.fs == Run(w).fs ==>
      Run(next) == if plan.exe in next.fs then Relaunched(next.fs, LaunchIn(plan.exe)) else FirstLife(next)
  {
    RunDispatch(w);
    assert Run(w) == Commit(w.fs, plan, w.selfExe, Win32);
    CommitReachesSteam(w.fs, plan, w.selfExe, Win32);
    HandoffToChosenGame(w.fs, plan, w.selfExe);
  }
}

=== FILE: manifest.dfy ===
/** The per-line scan of an `appmanifest_*.acf` file in `get_route_target`:
    which lines set `appid` and `installdir`, and to what. */
module Manifest {
  import opened Errors
  import opened Text

  const AppidKey := "\"appid\""
  const InstalldirKey := "\"installdir\""

  predicate IsQuote(ch: char)
  {
    ch == '"'
  }

  /** `line.split('"')[3]`. */
  function QuotedValue(line: string): (r: Result<string>)
    ensures r.Ok? <==> CountWhere(line, IsQuote) >= 3
    ensures r.Err? ==> r.error == IndexError
  {
    SplitByCount(line, IsQuote);
    var fields := SplitBy(line, IsQuote);
    if |fields| > 3 then Ok(fields[3]) else Err(IndexError)
  }

  /** The value is the fourth quote-delimited field: it follows exactly three
      quotes, holds none, and ends at the fourth quote or at the end of the line. */
  lemma QuotedValueLocated(line: string) returns (before: string, after: string)
    requires QuotedValue(line).Ok?
    ensures line == before + QuotedValue(line).value + after
    ensures CountWhere(before, IsQuote) == 3 && before[|before| - 1] == '"'
    ensures CountWhere(QuotedValue(line).value, IsQuote) == 0
    ensures after == "" || after[0] == '"'
  {
    var fields := SplitBy(line, IsQuote);
    SplitByCount(line, IsQuote);
    SplitByPiecesFree(line, IsQuote);
    JoinSplitBy(line, IsQuote, '"');
    JoinAround(fields, 3, '"');
    var front := fields[..3];
    assert PiecesAvoid(front, IsQuote);
    CountJoin(front, IsQuote, '"');
    CountWhereAppend(Join(front, '"'), ['"'], IsQuote);
    before := Join(front, '"') + ['"'];
    after := if 3 == |fields| - 1 then "" else ['"'] + Join(fields[4..], '"');
    CountFree(fields[3], IsQuote);
  }

  /** `game_data`: the dictionary the scan fills. */
  datatype GameData = GameData(appid: Option<string>, installdir: Option<string>)

  /** The two keys the scan looks for. */
  datatype Key = Appid | Installdir

  function Lookup(data: GameData, key: Key): Option<string>
  {
    match key
    case Appid => data.appid
    case Installdir => data.installdir
  }

  /** Whether `line` assigns `key`: an `appid` line wins over an
      `installdir` line, because the second test is an `elif`. */
  predicate Sets(key: Key, line: string)
  {
    match key
    case Appid => Contains(line, AppidKey)
    case Installdir => !Contains(line, AppidKey) && Contains(line, InstalldirKey)
  }

  /** A line that assigns a key but has fewer than four fields. */
  predicate Malformed(line: string)
  {
    (Sets(Appid, line) || Sets(Installdir, line)) && CountWhere(line, IsQuote) < 3
  }

  /** One iteration of the line loop. */
  function ApplyLine(data: GameData, line: string): Result<GameData>
  {
    if Contains(line, AppidKey) then
      match QuotedValue(line)
      case Ok(v) => Ok(data.(appid := Some(v)))
      case Err(e) => Err(e)
    else if Contains(line, InstalldirKey) then
      match QuotedValue(line)
      case Ok(v) => Ok(data.(installdir := Some(v)))
      case Err(e) => Err(e)
    else Ok(data)
  }

  /** `game_data` after the loop has run over `lines`, starting from `{}`. */
  function ParseManifest(lines: seq<string>): Result<GameData>
    decreases |lines|
  {
    if |lines| == 0 then Ok(GameData(None, None))
    else
      match ParseManifest(lines[..|lines| - 1])
      case Err(e) => Err(e)
      case Ok(data) => ApplyLine(data, lines[|lines| - 1])
  }

  /** Index of the last line that assigns `key`. */
  function LastSetting(lines: seq<string>, key: Key): (r: Option<nat>)
    ensures r.Some? ==> (r.value < |lines| && Sets(key, lines[r.value]) &&
      forall j :: r.value < j < |lines| ==> !Sets(key, lines[j]))
    ensures r.None? ==> forall j :: 0 <= j < |lines| ==> !Sets(key, lines[j])
    decreases |lines|
  {
    if |lines| == 0 then None
    else if Sets(key, lines[|lines| - 1]) then Some(|lines| - 1)
    else LastSetting(lines[..|lines| - 1], key)
  }

  /** The scan fails, with IndexError, exactly when some line that assigns a
      key is too short to have a fourth field. */
  lemma {:induction false} ParseManifestFails(lines: seq<string>)
    ensures ParseManifest(lines).Err? <==> exists i :: 0 <= i < |lines| && Malformed(lines[i])
    ensures ParseManifest(lines).Err? ==> ParseManifest(lines).error == IndexError
    decreases |lines|
  {
    if |lines| > 0 {
      var init := lines[..|lines| - 1];
      ParseManifestFails(init);
      assert forall i :: 0 <= i < |init| ==> init[i] == lines[i];
      if exists i :: 0 <= i < |lines| && Malformed(lines[i]) {
        var i :| 0 <= i < |lines| && Malformed(lines[i]);
        if i < |init| {
          assert Malformed(init[i]);
        }
      }
    }
  }

  /** On success each key holds the fourth field of the LAST line that
      assigns it (later lines overwrite earlier ones), and is absent when no
      line assigns it. */
  lemma {:induction false} ParseManifestReads(lines: seq<string>, key: Key)
    requires ParseManifest(lines).Ok?
    ensures Lookup(ParseManifest(lines).value, key).None? <==> LastSetting(lines, key).None?
    ensures LastSetting(lines, key).Some? ==>
      QuotedValue(lines[LastSetting(lines, key).value]) == Ok(Lookup(ParseManifest(lines).value, key).value)
    decreases |lines|
  {
    if |lines| > 0 {
      var init := lines[..|lines| - 1];
      var last := lines[|lines| - 1];
      ParseManifestReads(init, key);
      var before := ParseManifest(init).value;
      var after := ParseManifest(lines).value;
      assert after == ApplyLine(before, last).value;
      if !Sets(key, last) {
        assert Lookup(after, key) == Lookup(before, key);
        assert LastSetting(lines, key) == LastSetting(init, key);
        if LastSetting(init, key).Some? {
          assert init[LastSetting(init, key).value] == lines[LastSetting(init, key).value];
        }
      }
    }
  }
}

=== FILE: paths.dfy ===
/** Windows paths as `pathlib` handles them in the script: built from text,
    printed with `str`, joined with `/`, and taken apart into parent, name
    and stem. */
module Paths {
  import opened Errors
  import opened Text

  /** A path is its sequence of parts; the first part may be a drive such as "C:". */
  type Path = seq<string>

  predicate IsSeparator(ch: char)
  {
    ch == '/' || ch == '\\'
  }

  /** A part `pathlib` keeps: not empty, not ".", no separator inside. */
  predicate IsPart(c: string)
  {
    c != "" && c != "." && forall i :: 0 <= i < |c| ==> !IsSeparator(c[i])
  }

  predicate WellFormed(p: Path)
  {
    forall i :: 0 <= i < |p| ==> IsPart(p[i])
  }

  /** Drops the empty and "." pieces that repeated separators and "./" leave. */
  function KeepParts(pieces: seq<string>): (r: Path)
    ensures PiecesAvoid(pieces, IsSeparator) ==> WellFormed(r)
    ensures WellFormed(pieces) ==> r == pieces
    decreases |pieces|
  {
    if |pieces| == 0 then []
    else
      var rest := KeepParts(pieces[1..]);
      assert WellFormed(pieces) ==> [pieces[0]] + pieces[1..] == pieces;
      (if pieces[0] == "" || pieces[0] == "." then [] else [pieces[0]]) + rest
  }

  /** `Path(s)`: `s` split at either separator, empty and "." parts dropped. */
  function Parse(s: string): (r: Path)
    ensures WellFormed(r)
  {
    SplitByPiecesFree(s, IsSeparator);
    KeepParts(SplitBy(s, IsSeparator))
  }

  /** `str(p)` for a Windows path: the parts joined by backslashes, "." when there are none. */
  function Format(p: Path): string
  {
    if |p| == 0 then "." else Join(p, '\\')
  }

  /** What `str` prints, `Path` reads back: a path survives a trip through a text file. */
  lemma ParseFormat(p: Path)
    requires WellFormed(p)
    ensures Parse(Format(p)) == p
  {
    if |p| == 0 {
      SplitByFree(".", IsSeparator);
    } else {
      SplitByJoin(p, IsSeparator, '\\');
    }
  }

  /** A single part reads as a path of that one part. */
  lemma ParsePart(c: string)
    requires IsPart(c)
    ensures Parse(c) == [c]
  {
    SplitByFree(c, IsSeparator);
  }

  /** `Path("")` and `Path(".")` have no parts. */
  lemma ParseEmpty()
    ensures Parse("") == [] && Parse(".") == []
  {
    SplitByFree(".", IsSeparator);
  }

  /** Dropping the empty and "." pieces works piece by piece. */
  lemma {:induction false} KeepPartsAppend(xs: seq<string>, ys: seq<string>)
    ensures KeepParts(xs + ys) == KeepParts(xs) + KeepParts(ys)
    decreases |xs|
  {
    if |xs| > 0 {
      assert (xs + ys)[0] == xs[0];
      assert (xs + ys)[1..] == xs[1..] + ys;
      KeepPartsAppend(xs[1..], ys);
    } else {
      assert xs + ys == ys;
    }
  }

  /** A separator divides the text into two independent halves: the parts
      of `Path(a + sep + b)` are those of `Path(a)` followed by those of
      `Path(b)`. Every text is "", ".", a single part, or splits at its
      first separator, so with `ParseEmpty` and `ParsePart` this fixes the
      parts of every text. */
  lemma ParseAround(a: string, x: char, b: string)
    requires IsSeparator(x)
    ensures Parse(a + [x] + b) == Parse(a) + Parse(b)
  {
    var left, right := SplitBy(a, IsSeparator), SplitBy(b, IsSeparator);
    SplitByAround(a, x, b, IsSeparator);
    KeepPartsAppend(left, right);
  }

  /** `p / s`: the parts of `s` appended to `p`. A single part, the only
      kind the script ever appends, is appended as it is. */
  function Extend(p: Path, s: string): Path
  {
    if IsPart(s) then p + [s] else p + Parse(s)
  }

  /** `p / s` is `p` followed by the parts of `Path(s)`: `p` stays a
      prefix, the result is a path `pathlib` could produce when `p` is, and
      a single part is appended exactly. */
  lemma ExtendShape(p: Path, s: string)
    ensures Extend(p, s) == p + Parse(s)
    ensures WellFormed(p) ==> WellFormed(Extend(p, s))
    ensures |Extend(p, s)| >= |p| && Extend(p, s)[..|p|] == p
    ensures IsPart(s) ==> Extend(p, s) == p + [s]
  {
    if IsPart(s) {
      ParsePart(s);
    }
    var r := Extend(p, s);
    assert r[..|p|] == p;
  }

  /** `p.parent`. */
  function Parent(p: Path): Path
  {
    if |p| == 0 then [] else p[..|p| - 1]
  }

  /** `p.name`. */
  function Name(p: Path): string
  {
    if |p| == 0 then "" else p[|p| - 1]
  }

  /** Index of the last '.' in `name`, as `rfind` reports it. */
  function LastDot(name: string): (r: Option<nat>)
    ensures r.Some? ==> (r.value < |name| && name[r.value] == '.' &&
      forall j :: r.value < j < |name| ==> name[j] != '.')
    ensures r.None? ==> forall j :: 0 <= j < |name| ==> name[j] != '.'
    decreases |name|
  {
    if |name| == 0 then None
    else if name[|name| - 1] == '.' then Some(|name| - 1)
    else LastDot(name[..|name| - 1])
  }

  /** Position `i` starts the suffix of `name`: its last dot, neither first nor last. */
  predicate StartsSuffix(name: string, i: int)
  {
    0 < i < |name| - 1 && name[i] == '.' && forall j :: i < j < |name| ==> name[j] != '.'
  }

  /** `p.stem`: the name without its suffix, or the whole name when it has none. */
  function Stem(p: Path): (r: string)
    ensures forall i :: StartsSuffix(Name(p), i) ==> r == Name(p)[..i]
    ensures (forall i :: !StartsSuffix(Name(p), i)) ==> r == Name(p)
  {
    var name := Name(p);
    match LastDot(name)
    case Some(i) =>
      if 0 < i < |name| - 1 then assert StartsSuffix(name, i); name[..i] else name
    case None => name
  }

  /** `p.parent / ('_' + p.name)`: where the route target is moved aside to. */
  function Sentinel(p: Path): Path
  {
    Extend(Parent(p), "_" + Name(p))
  }

  /** The sentinel of a path stays in the same folder, its name gains a
      leading underscore, and it is never the path it was derived from. */
  lemma SentinelShape(p: Path)
    requires WellFormed(p)
    ensures WellFormed(Sentinel(p))
    ensures Parent(Sentinel(p)) == Parent(p) && Name(Sentinel(p)) == "_" + Name(p)
    ensures Sentinel(p) != p
  {
  }
}

=== FILE: route.dfy ===
/** `get_route_target`: pick the installed game whose executable will be
    swapped out, and let the user pick that executable. */
module Route {
  import opened Errors
  import opened Text
  import opened Paths
  import opened Manifest
  import opened Chooser

  const StoreAppUrl := "https://store.steampowered.com/app/"
  const RemotePlayHub := "https://store.steampowered.com/remoteplay_hub"

  /** The store page of `appid` links to the Remote Play hub. The text of a
      page is given as `storePage(url)`: fetching it is network I/O. */
  predicate SupportsRemotePlay(storePage: string -> string, appid: string)
  {
    Contains(storePage(StoreAppUrl + appid), RemotePlayHub)
  }

  /** A manifest the loop has parsed, with the `appid` it looked up. */
  datatype Examined = Examined(appid: string, data: GameData)

  /** The manifest loop over `manifests` (each a list of lines), `last` being
      the manifest of the previous iteration. The result is the manifest the
      loop ends on and whether it ended at `break`. */
  function ScanManifests(manifests: seq<seq<string>>, storePage: string -> string, last: Option<Examined>)
    : Result<(Examined, bool)>
    decreases |manifests|
  {
    if |manifests| == 0 then
      match last
      case None => Err(UnboundLocalError("game_data"))
      case Some(e) => Ok((e, false))
    else
      match ParseManifest(manifests[0])
      case Err(err) => Err(err)
      case Ok(data) =>
        match data.appid
        case None => Err(KeyError("appid"))
        case Some(appid) =>
          if SupportsRemotePlay(storePage, appid) then Ok((Examined(appid, data), true))
          else ScanManifests(manifests[1..], storePage, Some(Examined(appid, data)))
  }

  /** The game the script routes through. */
  datatype RouteGame = RouteGame(appid: string, installdir: string, found: bool)

  /** Lines 39-58 up to the `installdir` lookup. */
  function SelectRouteGame(manifests: seq<seq<string>>, storePage: string -> string): Result<RouteGame>
  {
    match ScanManifests(manifests, storePage, None)
    case Err(err) => Err(err)
    case Ok((e, found)) =>
      match e.data.installdir
      case None => Err(KeyError("installdir"))
      case Some(dir) => Ok(RouteGame(e.appid, dir, found))
  }

  /** A manifest the loop gets through: it parses and names an `appid`. */
  predicate Readable(manifest: seq<string>)
  {
    ParseManifest(manifest).Ok? && ParseManifest(manifest).value.appid.Some?
  }

  predicate Routable(manifest: seq<string>, storePage: string -> string)
  {
    Readable(manifest) && SupportsRemotePlay(storePage, ParseManifest(manifest).value.appid.value)
  }

  /** The position of the first routable manifest. */
  function FirstRoutable(manifests: seq<seq<string>>, storePage: string -> string): (r: Option<nat>)
    ensures r.Some? ==> (r.value < |manifests| && Routable(manifests[r.value], storePage) &&
      forall j :: 0 <= j < r.value ==> !Routable(manifests[j], storePage))
    ensures r.None? ==> forall j :: 0 <= j < |manifests| ==> !Routable(manifests[j], storePage)
    decreases |manifests|
  {
    if |manifests| == 0 then None
    else if Routable(manifests[0], storePage) then Some(0)
    else
      match FirstRoutable(manifests[1..], storePage)
      case None => None
      case Some(k) => Some(k + 1)
  }

  /** The manifest the loop ends on when every manifest is readable: the
      first routable one, else the last one. */
  function Chosen(manifests: seq<seq<string>>, storePage: string -> string): (k: nat)
    requires |manifests| > 0
    ensures k < |manifests|
  {
    match FirstRoutable(manifests, storePage)
    case Some(k) => k
    case None => |manifests| - 1
  }

  function ExaminedOf(manifest: seq<string>): Examined
    requires Readable(manifest)
  {
    Examined(ParseManifest(manifest).value.appid.value, ParseManifest(manifest).value)
  }

  lemma {:induction false} ScanReadable(manifests: seq<seq<string>>, storePage: string -> string, last: Option<Examined>)
    requires forall i :: 0 <= i < |manifests| ==> Readable(manifests[i])
    requires |manifests| > 0 || last.Some?
    ensures ScanManifests(manifests, storePage, last) ==
      if |manifests| == 0 then Ok((last.value, false))
      else Ok((ExaminedOf(manifests[Chosen(manifests, storePage)]), FirstRoutable(manifests, storePage).Some?))
    decreases |manifests|
  {
    if |manifests| > 0 && !Routable(manifests[0], storePage) {
      var tail := manifests[1..];
      assert forall i :: 0 <= i < |tail| ==> tail[i] == manifests[i + 1];
      ScanReadable(tail, storePage, Some(ExaminedOf(manifests[0])));
      if |tail| > 0 {
        assert manifests[Chosen(manifests, storePage)] == tail[Chosen(tail, storePage)];
      }
    }
  }

  /** When every manifest parses and names an `appid`, the loop stops at the
      first game whose store page links to the Remote Play hub (`found`),
      and otherwise falls back to the last manifest; with no manifests at
      all `game_data` is never bound. */
  lemma SelectRouteGameChoice(manifests: seq<seq<string>>, storePage: string -> string)
    requires forall i :: 0 <= i < |manifests| ==> Readable(manifests[i])
    ensures |manifests| == 0 ==> SelectRouteGame(manifests, storePage) == Err(UnboundLocalError("game_data"))
    ensures |manifests| > 0 ==>
      var data := ParseManifest(manifests[Chosen(manifests, storePage)]).value;
      SelectRouteGame(manifests, storePage) ==
        match data.installdir
        case None => Err(KeyError("installdir"))
        case Some(dir) => Ok(RouteGame(data.appid.value, dir, FirstRoutable(manifests, storePage).Some?))
  {
    if |manifests| > 0 {
      ScanReadable(manifests, storePage, None);
    }
  }

  /** Once a routable manifest is reached, the manifests after it are never
      read: they cannot change the outcome. */
  lemma {:induction false} StopsAtFirstRoutable(manifests: seq<seq<string>>, storePage: string -> string, last: Option<Examined>, k: nat)
    requires k < |manifests| && Routable(manifests[k], storePage)
    requires forall j :: 0 <= j < k ==> Readable(manifests[j])
    ensures ScanManifests(manifests, storePage, last) == ScanManifests(manifests[..k + 1], storePage, last)
    decreases k
  {
    var prefix := manifests[..k + 1];
    assert prefix[0] == manifests[0];
    if k > 0 && !Routable(manifests[0], storePage) {
      var tail := manifests[1..];
      assert prefix[1..] == tail[..k];
      StopsAtFirstRoutable(tail, storePage, Some(ExaminedOf(manifests[0])), k - 1);
    }
  }

  /** A manifest that does not parse, or names no `appid`, ends the run with
      that error as soon as the loop reaches it. */
  lemma {:induction false} UnreadableAborts(manifests: seq<seq<string>>, storePage: string -> string, last: Option<Examined>, k: nat)
    requires k < |manifests| && !Readable(manifests[k])
    requires forall j :: 0 <= j < k ==> Readable(manifests[j]) && !Routable(manifests[j], storePage)
    ensures ScanManifests(manifests, storePage, last) ==
      Err(if ParseManifest(manifests[k]).Err? then ParseManifest(manifests[k]).error else KeyError("appid"))
    decreases k
  {
    if k > 0 {
      var tail := manifests[1..];
      assert forall j :: 0 <= j < k - 1 ==> tail[j] == manifests[j + 1];
      UnreadableAborts(tail, storePage, Some(ExaminedOf(manifests[0])), k - 1);
    }
  }

  /** The two folder names are single parts. The membership assertions only
      hand the solver each character of the literals, which it does not
      enumerate on its own. */
  lemma FolderNamesAreParts()
    ensures IsPart("steamapps") && IsPart("common")
  {
    assert forall i :: 0 <= i < |"steamapps"| ==> "steamapps"[i] in "steamapps";
    assert forall i :: 0 <= i < |"common"| ==> "common"[i] in "common";
  }

  /** `steam_folder / 'steamapps' / 'common' / installdir`. */
  function RouteFolder(steam: Path, installdir: string): (r: Path)
    ensures WellFormed(steam) ==> WellFormed(r)
    ensures |r| >= |steam| + 2 && r[..|steam|] == steam && r[|steam|..|steam| + 2] == ["steamapps", "common"]
    ensures r[|steam| + 2..] == Parse(installdir)
  {
    FolderNamesAreParts();
    steam + ["steamapps", "common"] + Parse(installdir)
  }

  /** The route folder is the three `/` steps of the script applied in turn. */
  lemma RouteFolderIsExtend(steam: Path, installdir: string)
    ensures RouteFolder(steam, installdir) == Extend(Extend(Extend(steam, "steamapps"), "common"), installdir)
  {
    FolderNamesAreParts();
    ExtendShape(steam, "steamapps");
    ExtendShape(steam + ["steamapps"], "common");
    ExtendShape(steam + ["steamapps"] + ["common"], installdir);
    assert steam + ["steamapps"] + ["common"] == steam + ["steamapps", "common"];
  }

  /** What `get_route_target` returns: the executable chosen from the route
      game's folder, and the game's `appid`. `exeGlob(folder)` is the list
      the recursive `.exe` glob of `folder` yields, `answer` what the user types. */
  datatype RouteTarget = RouteTarget(target: Path, appid: string)

  function GetRouteTarget(steam: Path, manifests: seq<seq<string>>, storePage: string -> string,
                          exeGlob: Path -> seq<Path>, answer: string): (r: Result<RouteTarget>)
    ensures r.Ok? ==> SelectRouteGame(manifests, storePage).Ok?
    ensures r.Ok? ==> var game := SelectRouteGame(manifests, storePage).value;
      r.value.appid == game.appid && r.value.target in exeGlob(RouteFolder(steam, game.installdir))
    ensures SelectRouteGame(manifests, storePage).Err? ==> r == Err(SelectRouteGame(manifests, storePage).error)
    ensures SelectRouteGame(manifests, storePage).Ok? ==>
      var game := SelectRouteGame(manifests, storePage).value;
      var chosen := ShowChooser(exeGlob(RouteFolder(steam, game.installdir)), Stem, answer).choice;
      (r.Ok? <==> chosen.Ok?) &&
      (r.Ok? ==> r.value == RouteTarget(chosen.value, game.appid)) &&
      (r.Err? ==> r.error == chosen.error)
  {
    match SelectRouteGame(manifests, storePage)
    case Err(err) => Err(err)
    case Ok(game) =>
      var candidates := exeGlob(RouteFolder(steam, game.installdir));
      match ShowChooser(candidates, Stem, answer).choice
      case Err(err) => Err(err)
      case Ok(target) => Ok(RouteTarget(target, game.appid))
  }
}

=== FILE: substitution.dfy ===
/** Lines 73-78 of `remote_play_anything`: record the real game, move the
    route target aside, and put a copy of `sys.executable` in its place. */
module Substitution {
  import opened Errors
  import opened Paths
  import opened FileSystem

  /** `restart_file`: where the first life leaves the path of the real game
      for the second. */
  const RestartFile: Path := ["C:", "Users", "localhost", "Desktop", "foo.txt"]

  /** How the three steps end: all done, or stopped by an exception, with the
      files as the completed steps left them. */
  datatype Outcome = Done(fs: Files) | Failed(fs: Files, error: Error)

  /** Write `str(exe)` to the restart file, rename `routeTarget` to
      `_<name>` in its folder, and copy `selfExe` (`sys.executable`) to the
      path `str(routeTarget)` taken before the rename. */
  function Substitute(fs: Files, routeTarget: Path, exe: Path, selfExe: Path): Outcome
  {
    var written := WriteText(fs, RestartFile, Format(exe));
    var targetPath := Format(routeTarget);
    match Rename(written, routeTarget, Sentinel(routeTarget))
    case Err(e) => Failed(written, e)
    case Ok(moved) =>
      match Copy(moved, selfExe, Parse(targetPath))
      case Err(e) => Failed(moved, e)
      case Ok(copied) => Done(copied)
  }

  /** The paths involved are four different files, and the route target is a
      path `pathlib` could have produced. */
  predicate Separate(routeTarget: Path, selfExe: Path)
  {
    WellFormed(routeTarget) &&
    routeTarget != RestartFile && Sentinel(routeTarget) != RestartFile && selfExe != RestartFile &&
    selfExe != routeTarget && selfExe != Sentinel(routeTarget)
  }

  /** What the three steps need to find: the route target, a free
      `_`-prefixed name beside it, and `sys.executable`. */
  predicate Ready(fs: Files, routeTarget: Path, selfExe: Path)
  {
    routeTarget in fs && Sentinel(routeTarget) !in fs && selfExe in fs
  }

  /** The substitution completes exactly when the files are `Ready`. It then
      leaves the route target's original contents under the `_` name, this
      program's contents at the route target's path, the game's path in the
      restart file, and every other file as it was. */
  lemma SubstituteSucceeds(fs: Files, routeTarget: Path, exe: Path, selfExe: Path)
    requires Separate(routeTarget, selfExe)
    ensures Substitute(fs, routeTarget, exe, selfExe).Done? <==> Ready(fs, routeTarget, selfExe)
    ensures Substitute(fs, routeTarget, exe, selfExe).Done? ==>
      var after := Substitute(fs, routeTarget, exe, selfExe).fs;
      after[RestartFile] == Format(exe) &&
      Sentinel(routeTarget) in after && after[Sentinel(routeTarget)] == fs[routeTarget] &&
      routeTarget in after && after[routeTarget] == fs[selfExe] &&
      selfExe in after && after[selfExe] == fs[selfExe] &&
      SameElsewhere(fs, after, {RestartFile, routeTarget, Sentinel(routeTarget)})
  {
    ParseFormat(routeTarget);
    var written := WriteText(fs, RestartFile, Format(exe));
    var sentinel := Sentinel(routeTarget);
    if routeTarget in fs && sentinel !in fs {
      var moved := Rename(written, routeTarget, sentinel).value;
      if selfExe in fs {
        var copied := Copy(moved, selfExe, routeTarget).value;
        assert Substitute(fs, routeTarget, exe, selfExe) == Done(copied);
        assert copied[selfExe] == moved[selfExe] == written[selfExe] == fs[selfExe];
        assert copied[sentinel] == moved[sentinel] == written[routeTarget] == fs[routeTarget];
      }
    }
  }

  /** When the files are not `Ready`, the substitution fails at the first
      step that cannot be done, and nothing is rolled back: the restart
      record stays written, and when only the copy fails the route target
      stays moved aside, so the route game is left without its executable. */
  lemma SubstituteFails(fs: Files, routeTarget: Path, exe: Path, selfExe: Path)
    requires Separate(routeTarget, selfExe)
    requires !Ready(fs, routeTarget, selfExe)
    ensures Substitute(fs, routeTarget, exe, selfExe).Failed?
    ensures Substitute(fs, routeTarget, exe, selfExe).error ==
      if routeTarget !in fs then FileNotFoundError(Format(routeTarget))
      else if Sentinel(routeTarget) in fs then FileExistsError(Format(Sentinel(routeTarget)))
      else FileNotFoundError(Format(selfExe))
    ensures Substitute(fs, routeTarget, exe, selfExe).fs[RestartFile] == Format(exe)
    ensures routeTarget !in fs || Sentinel(routeTarget) in fs ==>
      SameElsewhere(fs, Substitute(fs, routeTarget, exe, selfExe).fs, {RestartFile})
    ensures routeTarget in fs && Sentinel(routeTarget) !in fs ==>
      var after := Substitute(fs, routeTarget, exe, selfExe).fs;
      routeTarget !in after && Sentinel(routeTarget) in after && after[Sentinel(routeTarget)] == fs[routeTarget] &&
      SameElsewhere(fs, after, {RestartFile, routeTarget, Sentinel(routeTarget)})
  {
  }

  /** A completed substitution leaves `str(exe)` in the restart file: the
      record is written first and no later step touches it. */
  lemma SubstituteRecord(fs: Files, routeTarget: Path, exe: Path, selfExe: Path)
    requires Substitute(fs, routeTarget, exe, selfExe).Done?
    requires WellFormed(routeTarget) && routeTarget != RestartFile
    ensures RestartFile in Substitute(fs, routeTarget, exe, selfExe).fs
    ensures Substitute(fs, routeTarget, exe, selfExe).fs[RestartFile] == Format(exe)
  {
    ParseFormat(routeTarget);
    var written := WriteText(fs, RestartFile, Format(exe));
    var moved := Rename(written, routeTarget, Sentinel(routeTarget)).value;
    var copied := Copy(moved, selfExe, routeTarget).value;
    assert Substitute(fs, routeTarget, exe, selfExe) == Done(copied);
    assert RestartFile != Sentinel(routeTarget);
    assert copied[RestartFile] == moved[RestartFile] == written[RestartFile];
  }
}

=== FILE: text.dfy ===
/** Python string operations the script relies on: `in`, `split`, and the
    whitespace that `int()` ignores. */
module Text {

  /** `sub in s`: `sub` occurs in `s` as a contiguous run. */
  predicate Contains(s: string, sub: string)
    decreases |s|
  {
    |sub| <= |s| && (s[..|sub|] == sub || (|s| > 0 && Contains(s[1..], sub)))
  }

  /** `sub` occurs in `s` starting at position `i`. */
  predicate OccursAt(s: string, sub: string, i: int)
  {
    0 <= i <= |s| - |sub| && s[i..i + |sub|] == sub
  }

  /** `sub in s` holds exactly when `sub` starts at some position of `s`. */
  lemma {:induction false} ContainsAt(s: string, sub: string)
    ensures Contains(s, sub) <==> exists i :: OccursAt(s, sub, i)
    decreases |s|
  {
    if |sub| <= |s| {
      if s[..|sub|] == sub {
        assert OccursAt(s, sub, 0);
      } else if |s| > 0 {
        var tail := s[1..];
        ContainsAt(tail, sub);
        if Contains(tail, sub) {
          var i :| OccursAt(tail, sub, i);
          assert OccursAt(s, sub, i + 1) by {
            assert s[i + 1..i + 1 + |sub|] == tail[i..i + |sub|];
          }
        }
        if exists i :: OccursAt(s, sub, i) {
          var i :| OccursAt(s, sub, i);
          assert i != 0;
          assert OccursAt(tail, sub, i - 1) by {
            assert tail[i - 1..i - 1 + |sub|] == s[i..i + |sub|];
          }
        }
      }
    }
  }

  /** Number of characters of `s` in the class `sep`. */
  function CountWhere(s: string, sep: char -> bool): nat
  {
    if |s| == 0 then 0 else (if sep(s[0]) then 1 else 0) + CountWhere(s[1..], sep)
  }

  lemma {:induction false} CountWhereAppend(a: string, b: string, sep: char -> bool)
    ensures CountWhere(a + b, sep) == CountWhere(a, sep) + CountWhere(b, sep)
    decreases |a|
  {
    if |a| > 0 {
      assert (a + b)[1..] == a[1..] + b;
      CountWhereAppend(a[1..], b, sep);
    } else {
      assert a + b == b;
    }
  }

  /** `s.split(c)`, generalised to a class of separator characters: the
      runs between separators, in order, including empty ones. */
  function SplitBy(s: string, sep: char -> bool): (r: seq<string>)
    ensures |r| > 0
    decreases |s|
  {
    if |s| == 0 then [""]
    else
      var rest := SplitBy(s[1..], sep);
      if sep(s[0]) then [""] + rest
      else [[s[0]] + rest[0]] + rest[1..]
  }

  /** One piece more than there are separators. */
  lemma {:induction false} SplitByCount(s: string, sep: char -> bool)
    ensures |SplitBy(s, sep)| == CountWhere(s, sep) + 1
    decreases |s|
  {
    if |s| > 0 {
      SplitByCount(s[1..], sep);
    }
  }

  /** No piece holds a character of the class `sep`. */
  predicate PiecesAvoid(pieces: seq<string>, sep: char -> bool)
  {
    forall i, j :: 0 <= i < |pieces| && 0 <= j < |pieces[i]| ==> !sep(pieces[i][j])
  }

  /** No piece of a split holds a separator. */
  lemma {:induction false} SplitByPiecesFree(s: string, sep: char -> bool)
    ensures PiecesAvoid(SplitBy(s, sep), sep)
    decreases |s|
  {
    if |s| > 0 {
      SplitByPiecesFree(s[1..], sep);
      var rest := SplitBy(s[1..], sep);
      var r := SplitBy(s, sep);
      forall i, j | 0 <= i < |r| && 0 <= j < |r[i]|
        ensures !sep(r[i][j])
      {
        if sep(s[0]) {
          assert r == [""] + rest;
          assert r[i] == rest[i - 1];
        } else {
          var head := [s[0]] + rest[0];
          assert r == [head] + rest[1..];
          if i == 0 {
            assert r[0][j] == if j == 0 then s[0] else rest[0][j - 1];
          } else {
            assert r[i] == rest[i];
          }
        }
      }
    }
  }

  /** The pieces with `glue` between each two, as `str(path)` joins the parts of a path. */
  function Join(pieces: seq<string>, glue: char): string
    decreases |pieces|
  {
    if |pieces| == 0 then ""
    else if |pieces| == 1 then pieces[0]
    else pieces[0] + [glue] + Join(pieces[1..], glue)
  }

  /** Splitting loses nothing: joining the pieces with the separator gives
      back the input. */
  lemma {:induction false} JoinSplitBy(s: string, sep: char -> bool, glue: char)
    requires forall i :: 0 <= i < |s| && sep(s[i]) ==> s[i] == glue
    ensures Join(SplitBy(s, sep), glue) == s
    decreases |s|
  {
    if |s| > 0 {
      var rest := SplitBy(s[1..], sep);
      assert forall i :: 0 <= i < |s[1..]| ==> s[1..][i] == s[i + 1];
      JoinSplitBy(s[1..], sep, glue);
      if sep(s[0]) {
        assert ([""] + rest)[1..] == rest;
        assert s == [glue] + s[1..];
      } else {
        var head := [s[0]] + rest[0];
        if |rest| > 1 {
          assert ([head] + rest[1..])[1..] == rest[1..];
          assert Join(rest, glue) == rest[0] + [glue] + Join(rest[1..], glue);
          assert s == [s[0]] + s[1..];
        } else {
          assert s == [s[0]] + s[1..];
        }
      }
    }
  }

  /** A separator splits the text on its two sides independently. */
  lemma {:induction false} SplitByAround(a: string, x: char, b: string, sep: char -> bool)
    requires sep(x)
    ensures SplitBy(a + [x] + b, sep) == SplitBy(a, sep) + SplitBy(b, sep)
    decreases |a|
  {
    if |a| == 0 {
      assert (a + [x] + b)[1..] == b;
    } else {
      SplitByAround(a[1..], x, b, sep);
      SplitByAroundStep(a, x, b, sep);
    }
  }

  /** The pieces of `[c] + t`, given the pieces of `t`: `c` starts a new
      piece if it is a separator, and otherwise joins the first piece. */
  function PushFront(c: char, isSep: bool, pieces: seq<string>): seq<string>
    requires |pieces| > 0
  {
    if isSep then [""] + pieces else [[c] + pieces[0]] + pieces[1..]
  }

  /** One character in front of `t`. */
  lemma SplitByCons(c: char, t: string, sep: char -> bool)
    ensures SplitBy([c] + t, sep) == PushFront(c, sep(c), SplitBy(t, sep))
  {
    assert ([c] + t)[1..] == t;
  }

  /** Pushing a character onto the first piece commutes with appending
      more pieces at the end. */
  lemma PushFrontAppend(c: char, isSep: bool, left: seq<string>, right: seq<string>)
    requires |left| > 0
    ensures PushFront(c, isSep, left + right) == PushFront(c, isSep, left) + right
  {
    if !isSep {
      assert (left + right)[0] == left[0];
      assert (left + right)[1..] == left[1..] + right;
    }
  }

  /** The inductive step of `SplitByAround`, with the first character of
      the left side written out. */
  lemma SplitByAroundCons(c: char, t: string, x: char, b: string, sep: char -> bool)
    requires sep(x)
    requires SplitBy(t + [x] + b, sep) == SplitBy(t, sep) + SplitBy(b, sep)
    ensures SplitBy([c] + (t + [x] + b), sep) == SplitBy([c] + t, sep) + SplitBy(b, sep)
  {
    SplitByCons(c, t + [x] + b, sep);
    SplitByCons(c, t, sep);
    PushFrontAppend(c, sep(c), SplitBy(t, sep), SplitBy(b, sep));
  }

  /** The inductive step of `SplitByAround`: one more character in front. */
  lemma SplitByAroundStep(a: string, x: char, b: string, sep: char -> bool)
    requires |a| > 0 && sep(x)
    requires SplitBy(a[1..] + [x] + b, sep) == SplitBy(a[1..], sep) + SplitBy(b, sep)
    ensures SplitBy(a + [x] + b, sep) == SplitBy(a, sep) + SplitBy(b, sep)
  {
    assert a == [a[0]] + a[1..];
    assert a + [x] + b == [a[0]] + (a[1..] + [x] + b);
    SplitByAroundCons(a[0], a[1..], x, b, sep);
  }

  /** Text without separators is a single piece. */
  lemma {:induction false} SplitByFree(s: string, sep: char -> bool)
    requires forall i :: 0 <= i < |s| ==> !sep(s[i])
    ensures SplitBy(s, sep) == [s]
    decreases |s|
  {
    if |s| > 0 {
      SplitByFree(s[1..], sep);
      assert [s[0]] + s[1..] == s;
    }
  }

  /** The other direction of the round trip: separator-free pieces joined
      by a separator split back into exactly those pieces. */
  lemma {:induction false} SplitByJoin(pieces: seq<string>, sep: char -> bool, glue: char)
    requires |pieces| > 0 && sep(glue) && PiecesAvoid(pieces, sep)
    ensures SplitBy(Join(pieces, glue), sep) == pieces
    decreases |pieces|
  {
    SplitByFree(pieces[0], sep);
    if |pieces| > 1 {
      SplitByJoin(pieces[1..], sep, glue);
      SplitByAround(pieces[0], glue, Join(pieces[1..], glue), sep);
      assert [pieces[0]] + pieces[1..] == pieces;
    }
  }

  /** Where piece `k` sits in the joined text: after the first `k` pieces
      and `k` glue characters, followed by glue or the end. */
  lemma {:induction false} JoinAround(pieces: seq<string>, k: nat, glue: char)
    requires k < |pieces|
    ensures Join(pieces, glue) ==
      (if k == 0 then "" else Join(pieces[..k], glue) + [glue]) + pieces[k] +
      (if k == |pieces| - 1 then "" else [glue] + Join(pieces[k + 1..], glue))
    decreases k
  {
    if k > 0 {
      var tail := pieces[1..];
      JoinAround(tail, k - 1, glue);
      assert tail[k - 1] == pieces[k];
      assert tail[k..] == pieces[k + 1..];
      if k > 1 {
        assert pieces[..k][1..] == tail[..k - 1];
      }
    }
  }

  lemma {:induction false} CountJoin(pieces: seq<string>, sep: char -> bool, glue: char)
    requires sep(glue) && PiecesAvoid(pieces, sep)
    ensures CountWhere(Join(pieces, glue), sep) == if |pieces| == 0 then 0 else |pieces| - 1
    decreases |pieces|
  {
    if |pieces| > 0 {
      CountFree(pieces[0], sep);
      if |pieces| > 1 {
        CountJoin(pieces[1..], sep, glue);
        CountWhereAppend(pieces[0], [glue], sep);
        CountWhereAppend(pieces[0] + [glue], Join(pieces[1..], glue), sep);
      }
    }
  }

  lemma {:induction false} CountFree(s: string, sep: char -> bool)
    requires forall i :: 0 <= i < |s| ==> !sep(s[i])
    ensures CountWhere(s, sep) == 0
    decreases |s|
  {
    if |s| > 0 {
      CountFree(s[1..], sep);
    }
  }

  /** `k` spaces. */
  function Spaces(k: nat): (r: string)
    ensures |r| == k && forall i :: 0 <= i < k ==> r[i] == ' '
  {
    seq(k, _ => ' ')
  }

  /** The ASCII whitespace `int()` trims around its argument. `int()` does
      not trim `\x1c`-`\x1f`, which `str.strip()` does. It also trims
      non-ASCII whitespace such as `\x85` and `\xa0`, which this model does
      not. */
  predicate IsSpace(ch: char)
  {
    ch == ' ' || '\t' <= ch <= '\r'
  }

  function TrimLeft(s: string): string
    decreases |s|
  {
    if |s| > 0 && IsSpace(s[0]) then TrimLeft(s[1..]) else s
  }

  function TrimRight(s: string): string
    decreases |s|
  {
    if |s| > 0 && IsSpace(s[|s| - 1]) then TrimRight(s[..|s| - 1]) else s
  }

  /** The trimming `int()` does before it reads digits: `s` without
      leading and trailing `IsSpace` characters. */
  function Strip(s: string): string
  {
    TrimRight(TrimLeft(s))
  }

  lemma {:induction false} TrimLeftShape(s: string)
    ensures var r := TrimLeft(s);
      |r| <= |s| && r == s[|s| - |r|..] && (|r| > 0 ==> !IsSpace(r[0])) &&
      forall k :: 0 <= k < |s| - |r| ==> IsSpace(s[k])
    decreases |s|
  {
    if |s| > 0 && IsSpace(s[0]) {
      TrimLeftShape(s[1..]);
    }
  }

  lemma {:induction false} TrimRightShape(s: string)
    ensures var r := TrimRight(s);
      |r| <= |s| && r == s[..|r|] && (|r| > 0 ==> !IsSpace(r[|r| - 1])) &&
      forall k :: |r| <= k < |s| ==> IsSpace(s[k])
    decreases |s|
  {
    if |s| > 0 && IsSpace(s[|s| - 1]) {
      TrimRightShape(s[..|s| - 1]);
    }
  }

  /** `int()`'s trimming removes whitespace at the two ends and nothing
      else, and leaves no whitespace at either end. */
  lemma StripShape(s: string) returns (lo: nat, hi: nat)
    ensures lo <= hi <= |s| && Strip(s) == s[lo..hi]
    ensures forall k :: 0 <= k < lo ==> IsSpace(s[k])
    ensures forall k :: hi <= k < |s| ==> IsSpace(s[k])
    ensures hi > lo ==> !IsSpace(s[lo]) && !IsSpace(s[hi - 1])
  {
    var l := TrimLeft(s);
    var r := TrimRight(l);
    TrimLeftShape(s);
    TrimRightShape(l);
    lo := |s| - |l|;
    hi := lo + |r|;
    assert r == s[lo..hi];
    assert forall k :: hi <= k < |s| ==> s[k] == l[k - lo];
  }

  /** Every character of `s` is whitespace `int()` trims. */
  predicate AllSpace(s: string)
  {
    forall i :: 0 <= i < |s| ==> IsSpace(s[i])
  }

  /** Leading whitespace before text that starts with a non-space is what
      the left trim removes. */
  lemma {:induction false} TrimLeftPadded(pre: string, u: string)
    requires AllSpace(pre) && |u| > 0 && !IsSpace(u[0])
    ensures TrimLeft(pre + u) == u
    decreases |pre|
  {
    if |pre| > 0 {
      assert (pre + u)[1..] == pre[1..] + u;
      TrimLeftPadded(pre[1..], u);
    } else {
      assert pre + u == u;
    }
  }

  /** Trailing whitespace after text that ends with a non-space is what
      the right trim removes. */
  lemma {:induction false} TrimRightPadded(u: string, post: string)
    requires AllSpace(post) && |u| > 0 && !IsSpace(u[|u| - 1])
    ensures TrimRight(u + post) == u
    decreases |post|
  {
    if |post| > 0 {
      var shorter := post[..|post| - 1];
      assert (u + post)[..|u + post| - 1] == u + shorter;
      TrimRightPadded(u, shorter);
    } else {
      assert u + post == u;
    }
  }

  /** Whitespace on both sides of text that starts and ends with a
      non-space is exactly what `int()`'s trimming removes. */
  lemma StripAround(pre: string, t: string, post: string)
    requires AllSpace(pre) && AllSpace(post)
    requires |t| > 0 && !IsSpace(t[0]) && !IsSpace(t[|t| - 1])
    ensures Strip(pre + t + post) == t
  {
    assert pre + t + post == pre + (t + post);
    TrimLeftPadded(pre, t + post);
    TrimRightPadded(t, post);
  }

  /** Leading spaces before text that starts and ends with a non-space are
      exactly what `int()`'s trimming removes. */
  lemma {:induction false} StripPadded(k: nat, t: string)
    requires |t| > 0 && !IsSpace(t[0]) && !IsSpace(t[|t| - 1])
    ensures Strip(Spaces(k) + t) == t
    decreases k
  {
    if k > 0 {
      assert (Spaces(k) + t)[1..] == Spaces(k - 1) + t;
      StripPadded(k - 1, t);
    } else {
      assert Spaces(k) + t == t;
    }
  }
}
